=== FILE: README.md ===
# libblrs controller core in Dafny

A model of the integer state-update rules of the BLRS robot-control libraries:

- **Feedback-controller core** (`libfbc/src/fbc.c`). One tick computes error = goal − sensed value. The wired compute strategy produces a raw output. A nonzero raw output inside the deadband is pushed to the deadband edge. A consecutive on-target confidence counter is kept. Around the tick sit goal setting, reset, initialisation, the tri-state confidence query, the default stall detector and the run-completion continuation predicate.
- **Clegg-integrator strategy** (`libfbc/src/fbc_clegg.c`). An integer accumulator is cleared on a goal change and on an error sign change, and integrates otherwise.
- **Modified-PID accumulator** (`libfbc/src/fbc_pidmod.c`). The integral is halved with C truncation on a sign change, accumulates otherwise, and the previous error is recorded.
- **Smart-motor table** (`sml/src/sml.c`). Ten motor slots with port validation, saturation to [-127, 127], inversion by ±1, per-port configuration and the `trueSpeed` lookup table.

Every operation is a pure function over immutable records:

- `Fbc.Controller` for `fbc_t`;
- `Clegg.State` for `fbc_clegg_t`;
- `PidMod.State` for `fbc_pidmod_t`;
- `Sml.Motor` and the length-10 `Sml.MotorTable` for `Motor motor[10]`;
- `Fbc.StallState` for the default stall detector's file-scope statics `_prev` and `_count`, which are threaded through the calls explicitly.

The callbacks are not code in the model:

- `sense()` is a reading passed to the tick;
- `move()` receives the tick's returned output;
- `resetSense()` is reported as called or not;
- `CUR_TIME()` is an opaque `Stamp`;
- a custom `stallDetect` contributes its boolean answer;
- mutex acquisition in `smartMotorSet` is a boolean supplied by the caller;
- the `motorSet` hardware write is returned as a `PwmWrite`.

The compute strategy is a tagged value `Fbc.Strategy` holding the record `_controllerData` points at. The reset hook is a flag: the library only ever stores the wired strategy's own reset there, or NULL. Floating point never enters the model:

- The Clegg product `gain * _integral` (converted to `int`) is a caller-supplied function `product`.
- The output of the PID strategy, and of strategies this model does not define, is an opaque integer.

Behaviour reproduced as written:

- `fbcGenerateOutput` never writes `fbc->output`. The default stall detector compares that stored field, not the last tick's output, with the deadband edges (`Fbc.RunContinuous` keeps `output` unchanged).
- The stall detector calls `sense()` twice. It compares the first reading with `_prev` and stores the second, so the model takes two readings.
- The confidence counter is not bounded by the threshold. It keeps counting for as long as the error stays on target.
- `_cleggCompute` never writes `_prevGoal` or `_prevError`. As long as the goal differs from `_prevGoal`, which compute never updates, every call takes the goal-change branch (`Clegg.GoalChangeIsSticky`). From reset or initialisation the integral never leaves 0 (`Clegg.NeverIntegratesFromRest`).
- `fbcInit` unbinds `resetController` and does not rebind it. A strategy wired before `fbcInit` is never cleared by a reset (`Wiring.InitDropsResetOfEarlierWiring`).
- The verdict of `fbcIsConfident` is the datatype `Fbc.Verdict`. The numeric value of `FBC_STALL` is defined in `fbc.h`, which is not part of this model.

## Model

| member | source | states |
|---|---|---|
| CInt.Sgn | libfbc/src/fbc_clegg.c:15 | sgn is 1 exactly for positive, -1 exactly for negative, 0 exactly for zero input |
| CInt.Int32RoundTrip | libfbc/src/fbc_clegg.c:46 | an `int` stored into an `unsigned int` field and read back as `int` is unchanged |
| Fbc.Compute | libfbc/src/fbc.c:103 | `fbc->compute(fbc, error)` runs the wired strategy: the Clegg step's output and record for a Clegg strategy, the integral update of the PID record with an opaque output, and an opaque output with the record untouched for any other compute |
| Fbc.Clamp | libfbc/src/fbc.c:104-107 | the clamped output never lies strictly inside (0, pos_deadband) or (neg_deadband, 0); 0 and values beyond the edge on their own side pass through; values inside are moved to the nearer edge |
| Fbc.ClampIdempotentAndSignPreserving | libfbc/src/fbc.c:104-107 | with neg_deadband ≤ 0 ≤ pos_deadband the clamp is idempotent, keeps the sign, never shrinks the magnitude, and passes anything ≥ pos_deadband or ≤ neg_deadband unchanged |
| Fbc.GenerateOutput | libfbc/src/fbc.c:101-115 | error is goal − sensed; the output is the clamped strategy output and is never inside the deadband; confidence becomes old+1 when abs(error) < tolerance, else 0; the time is stamped; goal, deadbands, tolerance, threshold, hooks and `output` are untouched |
| Fbc.OnTargetTicksCount | libfbc/src/fbc.c:109-110 | k consecutive on-target ticks add exactly k to the confidence counter |
| Fbc.OffTargetTickResets | libfbc/src/fbc.c:111-112 | whatever came before, a run ending in an off-target tick leaves confidence 0 |
| Fbc.RunContinuousJudgesAfterTick | libfbc/src/fbc.c:117-120 | with no stall detector bound, one on-target tick short of the threshold, the query before the tick says NotYet while the combined tick's own verdict already says Confident |
| Fbc.ConfidentExactlyAtThreshold | libfbc/src/fbc.c:81-85 | from a cleared counter with no stall detector, the query answers Confident after k on-target ticks iff k ≥ acceptableConfidence |
| Fbc.Reset | libfbc/src/fbc.c:66-71 | confidence and goal become 0; resetSense runs iff bound; the strategy record is reset iff resetController is bound; nothing else changes |
| Fbc.ResetIdempotent | libfbc/src/fbc.c:66-71 | resetting twice leaves the same record as resetting once |
| Fbc.Init | libfbc/src/fbc.c:51-64 | callbacks and constants are bound, resetController is unbound, goal and confidence are 0; the strategy, `output` and `_prevExecution` are kept |
| Fbc.SetGoal | libfbc/src/fbc.c:73-79 | fails iff the controller is null; afterwards the goal is the new goal; the timestamp changes only if the goal changed; confidence and everything else are untouched |
| Fbc.SetGoalTwice | libfbc/src/fbc.c:75 | a repeated identical goal changes nothing, including the timestamp |
| Fbc.MinStuck | libfbc/src/fbc.c:27-28 | min_stuck is at least 1 and is tolerance / 8 (the shift by three) once tolerance ≥ 16 |
| Fbc.StallDetect | libfbc/src/fbc.c:26-49 | at a deadband edge: count 0, prev kept, not stalled; otherwise count grows iff the first reading is within min_stuck of prev, else 0; stalled iff count > acceptableConfidence; on a stall both statics return to 0, otherwise prev takes the second reading |
| Fbc.SteadySensorStallsAfterThreshold | libfbc/src/fbc.c:36-48 | with an unmoving sensor and the stored output off the edges, checks starting from count n report a stall exactly at the (acceptableConfidence + 1 − n)-th check, counting up before it |
| Fbc.IsConfident | libfbc/src/fbc.c:81-85 | without a detector: Confident iff confidence ≥ threshold, never Stalled; a bound detector that reports a stall overrides; the default detector's state advances on every call |
| Fbc.RunContinuous | libfbc/src/fbc.c:117-120 | the tick's output is what is moved; the verdict and the stall state are exactly what `fbcIsConfident` answers on the post-tick record, so the verdict sees the updated confidence; `output` is still not written |
| Fbc.HasTimedOut | libfbc/src/fbc.c:90 | the continuation predicate is always true for timeout 0; otherwise true iff now ≤ start + timeout, with the sum wrapping at 2^32 |
| Clegg.GoalChangeOutput | libfbc/src/fbc_clegg.c:24 | the goal-change output is 0 for goal 0, initialOutput read as an int for a positive goal, and its negation for a negative goal, except that 2^31 (read as INT_MIN) stays INT_MIN because the negation wraps |
| Clegg.Compute | libfbc/src/fbc_clegg.c:17-35 | goal ≠ `_prevGoal`: goal-change output and integral 0; else error sign ≠ previous sign: output 0 and integral 0; else the output is the gain product of integral + error, which becomes the integral; only the integral ever changes |
| Clegg.GoalChangeIsSticky | libfbc/src/fbc_clegg.c:23-25 | once goal ≠ `_prevGoal`, every later compute returns the goal-change output and leaves the integral 0 |
| Clegg.NeverIntegratesFromRest | libfbc/src/fbc_clegg.c:27-32 | from integral 0 and previous error 0, the integral stays 0 forever and every output is the goal-change output, 0, or the gain product at 0 |
| Clegg.Reset | libfbc/src/fbc_clegg.c:37-42 | integral, previous error and previous goal become 0; gain and initialOutput are kept |
| Clegg.ResetIdempotent | libfbc/src/fbc_clegg.c:37-42 | resetting twice is resetting once |
| Clegg.InitializeData | libfbc/src/fbc_clegg.c:44-50 | gain is stored, the three internal fields are 0, and an int initialOutput reads back unchanged |
| Clegg.InitialOutputOnFirstGoal | libfbc/src/fbc_clegg.c:44-50 | a freshly initialised record answers a nonzero goal with sgn(goal) × the int initialOutput it was given; INT_MIN, whose negation wraps, stays INT_MIN |
| PidMod.HalfTowardZero | libfbc/src/fbc_pidmod.c:21 | halving satisfies C's identity x == 2·(x/2) + x%2, with a remainder that is 0 or has the sign of x |
| PidMod.HalfTowardZeroVersusEuclidean | libfbc/src/fbc_pidmod.c:21 | C halving agrees with Dafny's Euclidean `/ 2` iff x ≥ 0 or x is even |
| PidMod.HalfTowardZeroShrinks | libfbc/src/fbc_pidmod.c:21 | halving never grows the magnitude, keeps the sign or reaches 0, and is odd |
| PidMod.Accumulate | libfbc/src/fbc_pidmod.c:20-25 | on a sign change the integral is halved toward zero, otherwise the error is added; the previous error becomes this error; gains are untouched |
| PidMod.SameSignErrorsAreSummed | libfbc/src/fbc_pidmod.c:22-23 | while errors keep the previous error's sign, the integral is the running sum of the errors |
| PidMod.SignChangeNeverGrowsIntegral | libfbc/src/fbc_pidmod.c:20-21 | a sign change never increases the integral's magnitude |
| PidMod.Reset | libfbc/src/fbc_pidmod.c:30-34 | integral and previous error become 0; the four gains are kept |
| PidMod.InitializeDataAsWritten | libfbc/src/fbc_pidmod.c:36-41 | kP, kI and kD are stored; kF, the integral and the previous error keep their old values |
| PidMod.InitializeDataDropsFeedforward | libfbc/src/fbc_pidmod.c:36-41 | asking a zeroed record for kF = 1 leaves kF = 0 |
| PidMod.InitializeData | libfbc/src/fbc_pidmod.c:36-41 | corrected: all four gains are stored; the internal fields are kept for reset to clear |
| PidMod.InitializeDataDiffersOnlyInFeedforward | libfbc/src/fbc_pidmod.c:36-41 | the corrected initialiser differs from the original only in kF |
| Wiring.CleggInit | libfbc/src/fbc_clegg.c:52-56 | compute and `_controllerData` select the given Clegg record and its reset hook is bound; nothing else changes |
| Wiring.PIDModInit | libfbc/src/fbc_pidmod.c:43-47 | compute and `_controllerData` select the given PID record and its reset hook is bound; nothing else changes |
| Wiring.ResetClearsStrategyWiredAfterInit | libfbc/src/fbc.c:66-71 | a strategy wired after `fbcInit` is cleared by the next reset |
| Wiring.ResetClearsPidModWiredAfterInit | libfbc/src/fbc_pidmod.c:30-34 | a PID record wired after `fbcInit` has its integral and previous error zeroed by the next reset, gains kept |
| Wiring.InitDropsResetOfEarlierWiring | libfbc/src/fbc.c:51-64 | a strategy wired before `fbcInit` loses its reset hook; neither init's reset nor a later one clears its record |
| Wiring.CleggTickOnGoalChange | libfbc/src/fbc.c:101-107 | a Clegg-wired tick after a goal change moves the clamped goal-change output and leaves the integral 0 |
| Sml.LUTShape | sml/src/sml.c:15-24 | the table has 128 entries in 0..127 and never decreases; it is 0 exactly on the first MOTOR_DEADBAND entries and positive from there on |
| Sml.LUTNonDecreasing | sml/src/sml.c:15-24 | each entry of the table is ≤ the next |
| Sml.LUTDeadband | sml/include/sml.h:20 | entries 0..6 are 0, entry 7 is positive, entry 127 is 127 |
| Sml.TrueSpeedAsWritten | sml/src/sml.c:47-50 | the lookup stays inside the table iff 0 ≤ cmd ≤ 127, and then returns the table entry (0 for cmd 0) |
| Sml.TrueSpeedAsWrittenNeverReverses | sml/src/sml.c:49 | as written, no in-bounds command yields a negative speed, and −127 reads outside the table |
| Sml.TrueSpeed | sml/src/sml.c:47-50 | corrected: the table entry for a non-negative command; the result stays within ±127, has the command's sign or is 0, and is 0 inside the deadband |
| Sml.TrueSpeedAgreesWhereDefined | sml/src/sml.c:49 | the corrected lookup equals the original wherever the original stays in bounds |
| Sml.TrueSpeedOdd | sml/src/sml.c:49 | reversing the command reverses the speed |
| Sml.TrueSpeedMonotone | sml/src/sml.c:49 | a larger command never gives a smaller speed |
| Sml.Recalc | sml/src/sml.c:33-36 | `defaultRecalculate` is the identity; the `trueSpeed` hook uses the corrected `trueSpeed`, which agrees with the code on every non-negative value and keeps values in range and sign |
| Sml.ClampPwm | sml/src/sml.c:132-135 | the stored value lies in [-127, 127], equals the command when in range and saturates at the nearer bound otherwise |
| Sml.ClampPwmIdempotentMonotone | sml/src/sml.c:132-135 | saturation is idempotent and order-preserving |
| Sml.SmartMotorSet | sml/src/sml.c:128-148 | succeeds iff the port is in 1..10 and the immediate path got its mutex; failure changes nothing; success stores clamp(command) × inverted in slot port−1 only; the PWM write happens iff it succeeded on the immediate path |
| Sml.SmartMotorGet | sml/src/sml.c:159-165 | 0 for a port outside 1..10 or an unconfigured slot; otherwise the stored command for inversion 1 and its negation for inversion −1 |
| Sml.SetThenGet | sml/src/sml.c:146-164 | after a successful set on a slot inverted by ±1, get returns the saturated command |
| Sml.SetLeavesOtherPorts | sml/src/sml.c:146 | a set never changes another port's reading |
| Sml.SmartMotorInit | sml/src/sml.c:182-196 | no-op outside 1..10; otherwise sets port, inversion −1/1, slew rate and callback, with NULL becoming `defaultRecalculate`; other slots and fields are untouched |
| Sml.InitSetGet | sml/src/sml.c:188 | after configuring a port, set-then-get round-trips whichever way the motor is mounted, and an inverted motor stores the negated command |
| Sml.UnconfiguredSlotReadsZero | sml/src/sml.c:12 | in the zero-initialised table the inversion factor is 0, so get reads 0 after any set, immediate or not, whether or not the mutex is taken |

## Left out

- `_fbcTask`, `fbcRunParallel` and the loop of `fbcRunCompletion` (libfbc/src/fbc.c:15-22, 87-99): these are scheduler tasks, `taskDelayUntil` timing and `millis()`. Only the continuation predicate `HAS_TIMED_OUT` is modelled.
- `_motorManagerTask`, `motorManagerInit` and `motorManagerStop` (sml/src/sml.c:57-112): these use float slew rates, the clock, mutexes and task creation.
- The PID output expression (libfbc/src/fbc_pidmod.c:24, 26-27): it needs doubles and division by elapsed time. The model uses an opaque integer for it.
- Fbc.Compute: the Clegg product `gain * _integral` is uninterpreted. Its double rounding, and the undefined conversion of an out-of-range double to `int`, are not modelled.
- Fbc.GenerateOutput: `goal - sense()`, `abs(error)` and the `unsigned int` counter `_confidence` are unbounded integers. 32-bit overflow and wrap-around of these are not modelled.
- Clegg.Compute: `_integral` is a 32-bit `long` whose overflow is not modelled.
- PidMod.Accumulate: `_integral` is a 32-bit `long` whose overflow is not modelled.
- Fbc.StallDetect: `_count` wrap-around and `abs` of the most negative `int` are not modelled.
- Fbc.Init: takes tolerance as a natural number. `fbc.h` is not part of this model. The field is taken to be `unsigned int`, as the cast at libfbc/src/fbc.c:109 suggests, so the conversion of a negative `int` argument is not modelled.
- The callbacks `move`, `sense` and `resetSense`, a custom `stallDetect`, and `CUR_TIME()` are external. They appear as readings, recorded calls, a boolean answer and an opaque stamp. A custom compute strategy (TBH, hysteresis) is `Fbc.OtherStrategy` with an opaque output.
- Sml.SmartMotorInit: plain `char` is taken as signed, so `inverted` holds −1 for an inverted motor. With an unsigned `char`, the default on ARM, it would hold 255 and `Sml.SetThenGet` and `Sml.InitSetGet` would not hold for inverted motors. The build flags that decide this are not part of this model.
- Sml.Recalc: for a negative value under the `trueSpeed` hook it returns the corrected lookup, not the out-of-bounds read the code performs (see Findings; `Sml.TrueSpeedAsWritten` models the code as written).
- The strategy record is held by value in `Fbc.Strategy`, where the C controller holds a pointer to the caller's record. Two controllers sharing one record, and changes made through the caller's pointer after wiring, are not modelled.
- `libmtrmgr/src/opcontrol.c` is demo joystick I/O. `buttons/include/buttons.h` holds only declarations.

## Findings

| source | as written | input that shows it | evidently intended | confidence | as-written member | corrected member |
|---|---|---|---|---|---|---|
| sml/src/sml.c:49 | `cmd > 0 ? trueSpeedLUT[cmd] : -trueSpeedLUT[cmd]` indexes the table with a negative index for every negative command | `trueSpeed(-127)`, a full-reverse command passed to the `trueSpeed` recalculate hook, reads `trueSpeedLUT[-127]` | `-trueSpeedLUT[-cmd]`: the lookup on the magnitude, with the command's sign | high; not executed | Sml.TrueSpeedAsWritten (Sml.TrueSpeedAsWrittenNeverReverses) | Sml.TrueSpeed (Sml.TrueSpeedOdd, Sml.TrueSpeedMonotone, used by Sml.Recalc) |
| libfbc/src/fbc_pidmod.c:36-41 | `fbcPIDModInitializeData` takes `kF` but never stores it | a zeroed record initialised with kF = 1 keeps kF = 0 | store `kF` with the other three gains | high; not executed | PidMod.InitializeDataAsWritten (PidMod.InitializeDataDropsFeedforward) | PidMod.InitializeData (PidMod.InitializeDataDiffersOnlyInFeedforward) |

=== FILE: cint.dfy ===
/** C integer conventions shared by the controller library: the three-way sign
    helper (declared `static` in both strategy files) and the conversions between
    mathematical integers and 32-bit machine words on the target (ARM Cortex-M3,
    two's complement, `int` and `unsigned int` both 32 bits wide). */
module CInt {

  const WORD: int := 0x1_0000_0000
  const INT_MIN: int := -0x8000_0000
  const INT_MAX: int := 0x7FFF_FFFF

  /** Values an `unsigned int` can hold. */
  type uint32 = x: int | 0 <= x < WORD

  predicate IsInt32(x: int) {
    INT_MIN <= x <= INT_MAX
  }

  function Abs(x: int): (r: nat)
    ensures r == x || r == -x
  {
    if x < 0 then -x else x
  }

  /** `sgn(x)`: 1 for positive, -1 for negative, 0 for zero input. */
  function Sgn(x: int): (r: int)
    ensures r == 1 <==> x > 0
    ensures r == -1 <==> x < 0
    ensures r == 0 <==> x == 0
  {
    if x > 0 then 1 else if x < 0 then -1 else 0
  }

  /** Conversion of any integer value to `unsigned int`: reduction modulo 2^32
      (C11 section 6.3.1.3, paragraph 2). */
  function ToUint32(x: int): (r: uint32)
    ensures (r - x) % WORD == 0
  {
    x % WORD
  }

  /** Conversion of an `unsigned int` back to `int`; implementation-defined in C,
      two's complement on the target. */
  function ToInt32(u: uint32): (r: int)
    ensures IsInt32(r)
    ensures (r - u) % WORD == 0
  {
    if u > INT_MAX then u - WORD else u
  }

  /** An `int` survives the round trip through `unsigned int`. */
  lemma Int32RoundTrip(x: int)
    requires IsInt32(x)
    ensures ToInt32(ToUint32(x)) == x
  {
    if x < 0 {
      assert ToUint32(x) == x + WORD;
    }
  }
}

=== FILE: fbc.dfy ===
/** The feedback-controller core (libfbc/src/fbc.c).

    A controller drives an actuator toward a goal. Each tick reads the sensor,
    hands the error to the wired compute strategy, pushes a nonzero raw output
    that falls inside the deadband out to the deadband edge, and counts
    consecutive on-target ticks. The callbacks are not modelled as code:
    `sense()` is a reading passed in, `move()` receives the returned output,
    `resetSense()` is reported as called or not, and `CUR_TIME()` is an
    opaque stamp. The default stall detector's file-scope statics become an
    explicit `StallState` threaded through the calls. */
module Fbc {
  import opened Wrappers
  import opened CInt
  import Clegg
  import PidMod

  /** A reading of the scheduler's time source. */
  type Stamp = nat

  /** `compute` together with the record `_controllerData` points at. */
  datatype Strategy =
    | OtherStrategy                       // a compute this model does not define (TBH, hysteresis)
    | CleggStrategy(clegg: Clegg.State)
    | PidModStrategy(pid: PidMod.State)

  /** Which `stallDetect` callback is bound. */
  datatype StallHook = NoStallDetect | DefaultStallDetect | CustomStallDetect

  /** `fbc_t`. `resetController` records whether the reset hook of the wired
      strategy is bound (the API only ever stores that hook or NULL). `output`
      is a field no operation of the core writes. */
  datatype Controller = Controller(
    hasResetSense: bool,
    stallDetect: StallHook,
    strategy: Strategy,
    resetController: bool,
    negDeadband: int,
    posDeadband: int,
    acceptableTolerance: nat,
    acceptableConfidence: nat,
    goal: int,
    output: int,
    confidence: nat,
    prevExecution: Stamp)

  /** What one compute call needs from outside the model: the `int` the C code
      obtains from the Clegg product `gain * _integral`, and the raw output of
      a strategy whose output is floating point or not modelled at all. */
  datatype Foreign = Foreign(product: (real, int) -> int, opaqueOutput: int)

  datatype Computed = Computed(raw: int, strategy: Strategy)

  /** `fbc->compute(fbc, error)`, dispatched on the wired strategy. */
  function Compute(s: Strategy, goal: int, error: int, f: Foreign): (r: Computed)
    ensures s.OtherStrategy? ==> r == Computed(f.opaqueOutput, s)
    ensures r.strategy.CleggStrategy? == s.CleggStrategy?
    ensures s.CleggStrategy? ==> r == Computed(Clegg.Compute(s.clegg, goal, error, f.product).out,
                                               CleggStrategy(Clegg.Compute(s.clegg, goal, error, f.product).state))
    ensures s.PidModStrategy? ==> r == Computed(f.opaqueOutput, PidModStrategy(PidMod.Accumulate(s.pid, error)))
  {
    match s
    case OtherStrategy => Computed(f.opaqueOutput, s)
    case CleggStrategy(d) =>
      var step := Clegg.Compute(d, goal, error, f.product);
      Computed(step.out, CleggStrategy(step.state))
    case PidModStrategy(d) => Computed(f.opaqueOutput, PidModStrategy(PidMod.Accumulate(d, error)))
  }

  /** The deadband clamp of `fbcGenerateOutput`: a positive output below the
      positive edge is raised to it, a negative output above the negative edge
      is lowered to it, anything else passes through. */
  function Clamp(raw: int, negDeadband: int, posDeadband: int): (out: int)
    ensures !(0 < out < posDeadband) && !(negDeadband < out < 0)
    ensures raw == 0 || (raw > 0 && raw >= posDeadband) || (raw < 0 && raw <= negDeadband) ==> out == raw
    ensures 0 < raw < posDeadband ==> out == posDeadband
    ensures negDeadband < raw < 0 ==> out == negDeadband
  {
    if raw < posDeadband && raw > 0 then posDeadband
    else if raw > negDeadband && raw < 0 then negDeadband
    else raw
  }

  /** With the edges on either side of zero the clamp is idempotent and never
      turns a nonzero output around or off. */
  lemma ClampIdempotentAndSignPreserving(raw: int, negDeadband: int, posDeadband: int)
    requires negDeadband <= 0 <= posDeadband
    ensures Clamp(Clamp(raw, negDeadband, posDeadband), negDeadband, posDeadband) == Clamp(raw, negDeadband, posDeadband)
    ensures Sgn(Clamp(raw, negDeadband, posDeadband)) == Sgn(raw)
    ensures Abs(Clamp(raw, negDeadband, posDeadband)) >= Abs(raw)
    ensures raw >= posDeadband || raw <= negDeadband ==> Clamp(raw, negDeadband, posDeadband) == raw
  {
  }

  /** One tick's result: the output handed to `move` and the updated record. */
  datatype Tick = Tick(out: int, controller: Controller)

  /** `fbcGenerateOutput` with sensor reading `sensed` at time `now`. */
  function GenerateOutput(c: Controller, sensed: int, now: Stamp, f: Foreign): (r: Tick)
    ensures var error := c.goal - sensed;
      && r.out == Clamp(Compute(c.strategy, c.goal, error, f).raw, c.negDeadband, c.posDeadband)
      && r.controller.strategy == Compute(c.strategy, c.goal, error, f).strategy
      && r.controller.confidence == (if Abs(error) < c.acceptableTolerance then c.confidence + 1 else 0)
    ensures !(0 < r.out < c.posDeadband) && !(c.negDeadband < r.out < 0)
    ensures r.controller.prevExecution == now
    ensures r.controller == c.(strategy := r.controller.strategy,
                               confidence := r.controller.confidence,
                               prevExecution := now)
  {
    var error := c.goal - sensed;
    var computed := Compute(c.strategy, c.goal, error, f);
    var out := Clamp(computed.raw, c.negDeadband, c.posDeadband);
    var confidence := if Abs(error) < c.acceptableTolerance then c.confidence + 1 else 0;
    Tick(out, c.(strategy := computed.strategy, confidence := confidence, prevExecution := now))
  }

  /** The record after a sequence of ticks, one sensor reading each. */
  function Ticks(c: Controller, readings: seq<int>, now: Stamp, f: Foreign): (r: Controller)
    ensures r.goal == c.goal && r.acceptableTolerance == c.acceptableTolerance
    ensures r.acceptableConfidence == c.acceptableConfidence && r.stallDetect == c.stallDetect
    ensures r.negDeadband == c.negDeadband && r.posDeadband == c.posDeadband && r.output == c.output
    decreases |readings|
  {
    if |readings| == 0 then c
    else Ticks(GenerateOutput(c, readings[0], now, f).controller, readings[1..], now, f)
  }

  /** Consecutive on-target ticks add one each to the confidence counter. */
  lemma {:induction false} OnTargetTicksCount(c: Controller, readings: seq<int>, now: Stamp, f: Foreign)
    requires forall i :: 0 <= i < |readings| ==> Abs(c.goal - readings[i]) < c.acceptableTolerance
    ensures Ticks(c, readings, now, f).confidence == c.confidence + |readings|
    decreases |readings|
  {
    if |readings| > 0 {
      var c' := GenerateOutput(c, readings[0], now, f).controller;
      assert forall i :: 0 <= i < |readings[1..]| ==> Abs(c'.goal - readings[1..][i]) < c'.acceptableTolerance by {
        forall i | 0 <= i < |readings[1..]|
          ensures Abs(c'.goal - readings[1..][i]) < c'.acceptableTolerance
        {
          assert readings[1..][i] == readings[i + 1];
        }
      }
      OnTargetTicksCount(c', readings[1..], now, f);
    }
  }

  /** An off-target tick ends the streak, whatever came before it. */
  lemma {:induction false} OffTargetTickResets(c: Controller, readings: seq<int>, now: Stamp, f: Foreign)
    requires |readings| > 0
    requires Abs(c.goal - readings[|readings| - 1]) >= c.acceptableTolerance
    ensures Ticks(c, readings, now, f).confidence == 0
    decreases |readings|
  {
    if |readings| > 1 {
      var c' := GenerateOutput(c, readings[0], now, f).controller;
      assert readings[1..][|readings[1..]| - 1] == readings[|readings| - 1];
      OffTargetTickResets(c', readings[1..], now, f);
    }
  }

  /** `fbcReset`'s call of the bound strategy reset hook. */
  function ResetStrategy(s: Strategy): (r: Strategy)
    ensures s.CleggStrategy? ==> r == CleggStrategy(Clegg.Reset(s.clegg))
    ensures s.PidModStrategy? ==> r == PidModStrategy(PidMod.Reset(s.pid))
    ensures s.OtherStrategy? ==> r == s
  {
    match s
    case OtherStrategy => s
    case CleggStrategy(d) => CleggStrategy(Clegg.Reset(d))
    case PidModStrategy(d) => PidModStrategy(PidMod.Reset(d))
  }

  /** The record after reset, and whether the `resetSense` callback ran. */
  datatype Cleared = Cleared(controller: Controller, resetSenseCalled: bool)

  /** `fbcReset`: confidence and goal go to 0; `resetSense` and
      `resetController` run only when bound. */
  function Reset(c: Controller): (r: Cleared)
    ensures r.controller.confidence == 0 && r.controller.goal == 0
    ensures r.resetSenseCalled == c.hasResetSense
    ensures c.resetController ==> r.controller.strategy == ResetStrategy(c.strategy)
    ensures !c.resetController ==> r.controller.strategy == c.strategy
    ensures r.controller == c.(confidence := 0, goal := 0, strategy := r.controller.strategy)
  {
    var strategy := if c.resetController then ResetStrategy(c.strategy) else c.strategy;
    Cleared(c.(confidence := 0, strategy := strategy, goal := 0), c.hasResetSense)
  }

  /** Resetting a reset controller changes nothing more. */
  lemma ResetIdempotent(c: Controller)
    ensures Reset(Reset(c).controller).controller == Reset(c).controller
  {
  }

  /** `fbcInit`: binds the callbacks and constants, unbinds the strategy reset
      hook, then resets. `compute`, `_controllerData`, `output` and
      `_prevExecution` are not written. */
  function Init(c: Controller, hasResetSense: bool, stallDetect: StallHook, negDeadband: int, posDeadband: int,
                acceptableTolerance: nat, acceptableConfidence: nat): (r: Cleared)
    ensures !r.controller.resetController
    ensures r.controller.goal == 0 && r.controller.confidence == 0
    ensures r.resetSenseCalled == hasResetSense
    ensures r.controller.strategy == c.strategy
    ensures r.controller == Controller(hasResetSense, stallDetect, c.strategy, false, negDeadband, posDeadband,
                                       acceptableTolerance, acceptableConfidence, 0, c.output, 0, c.prevExecution)
  {
    Reset(c.(hasResetSense := hasResetSense, stallDetect := stallDetect,
             acceptableTolerance := acceptableTolerance, acceptableConfidence := acceptableConfidence,
             negDeadband := negDeadband, posDeadband := posDeadband, resetController := false))
  }

  /** `fbcSetGoal`'s return value and the record it leaves (None for a null
      controller). */
  datatype GoalSet = GoalSet(ok: bool, controller: Option<Controller>)

  /** `fbcSetGoal`: fails only on a null controller; stamps the time only
      when the goal actually changes; never touches confidence. */
  function SetGoal(c: Option<Controller>, newGoal: int, now: Stamp): (r: GoalSet)
    ensures r.ok <==> c.Some?
    ensures c.None? ==> r.controller.None?
    ensures c.Some? ==> r.controller.Some? && r.controller.value.goal == newGoal
    ensures c.Some? ==> r.controller.value.prevExecution ==
                        (if c.value.goal == newGoal then c.value.prevExecution else now)
    ensures c.Some? ==> r.controller.value == c.value.(goal := newGoal,
                                                       prevExecution := r.controller.value.prevExecution)
  {
    match c
    case None => GoalSet(false, None)
    case Some(fbc) =>
      if fbc.goal == newGoal then GoalSet(true, c)
      else GoalSet(true, Some(fbc.(goal := newGoal, prevExecution := now)))
  }

  /** Setting the same goal twice stamps the time at most once: the second
      call leaves the record exactly as the first left it. */
  lemma SetGoalTwice(c: Controller, newGoal: int, now: Stamp, later: Stamp)
    ensures SetGoal(SetGoal(Some(c), newGoal, now).controller, newGoal, later) == SetGoal(Some(c), newGoal, now)
  {
  }

  /** The default stall detector's file-scope statics `_prev` and `_count`. */
  datatype StallState = StallState(prev: int, count: nat)

  const InitialStall: StallState := StallState(0, 0)

  datatype StallCheck = StallCheck(stalled: bool, state: StallState)

  /** `min_stuck`: the tolerance shifted right by three, at least 1. */
  function MinStuck(tolerance: nat): (m: nat)
    ensures m >= 1
    ensures tolerance >= 8 ==> 8 * m <= tolerance < 8 * m + 8
    ensures tolerance < 16 ==> m == 1
  {
    var m := tolerance / 8;
    if m < 1 then 1 else m
  }

  /** `fbcStallDetect`. The C code calls `sense()` twice: `first` is the
      reading compared with `_prev`, `second` the reading stored into it. */
  function StallDetect(c: Controller, st: StallState, first: int, second: int): (r: StallCheck)
    ensures c.output == c.negDeadband || c.output == c.posDeadband ==>
      !r.stalled && r.state == StallState(st.prev, 0)
    ensures c.output != c.negDeadband && c.output != c.posDeadband ==>
      var count := if Abs(first - st.prev) < MinStuck(c.acceptableTolerance) then st.count + 1 else 0;
      && (r.stalled <==> count > c.acceptableConfidence)
      && (r.stalled ==> r.state == InitialStall)
      && (!r.stalled ==> r.state == StallState(second, count))
  {
    var minStuck := MinStuck(c.acceptableTolerance);
    var delta := Abs(first - st.prev);
    if c.output == c.negDeadband || c.output == c.posDeadband then
      StallCheck(false, st.(count := 0))
    else
      var count := if delta < minStuck then st.count + 1 else 0;
      var stall := count > c.acceptableConfidence;
      if stall then StallCheck(true, InitialStall)
      else StallCheck(false, StallState(second, count))
  }

  /** Successive stall checks with a steady sensor reading `v`. */
  function StallRun(c: Controller, st: StallState, v: int, calls: nat): (r: StallCheck)
    decreases calls
  {
    if calls == 0 then StallCheck(false, st)
    else
      var s := StallDetect(c, st, v, v);
      if calls == 1 then s else StallRun(c, s.state, v, calls - 1)
  }

  /** A sensor that does not move while the stored output is off the deadband
      edges is reported stalled on exactly the (threshold + 1)-th check after
      the counter was at 0: earlier checks report nothing and count up. */
  lemma {:induction false} SteadySensorStallsAfterThreshold(c: Controller, v: int, n: nat, calls: nat)
    requires c.output != c.negDeadband && c.output != c.posDeadband
    requires 0 < calls && n + calls <= c.acceptableConfidence + 1
    ensures StallRun(c, StallState(v, n), v, calls).stalled <==> n + calls == c.acceptableConfidence + 1
    ensures !StallRun(c, StallState(v, n), v, calls).stalled ==>
      StallRun(c, StallState(v, n), v, calls).state == StallState(v, n + calls)
    decreases calls
  {
    var s := StallDetect(c, StallState(v, n), v, v);
    assert Abs(v - v) == 0;
    if calls > 1 {
      assert !s.stalled && s.state == StallState(v, n + 1);
      SteadySensorStallsAfterThreshold(c, v, n + 1, calls - 1);
    }
  }

  /** `fbcIsConfident`'s tri-state answer. */
  datatype Verdict = NotYet | Confident | Stalled

  /** Inputs of one stall check: the two readings the default detector takes
      and the answer of a custom detector. */
  datatype Probe = Probe(first: int, second: int, customStalled: bool)

  datatype Judged = Judged(verdict: Verdict, stall: StallState)

  /** `fbcIsConfident`: confident once the counter reaches the threshold,
      overridden by a bound stall detector that reports a stall. The
      detector runs on every call, whatever the counter says. */
  function IsConfident(c: Controller, st: StallState, p: Probe): (r: Judged)
    ensures c.stallDetect.NoStallDetect? ==>
      r.stall == st && r.verdict != Stalled && (r.verdict == Confident <==> c.confidence >= c.acceptableConfidence)
    ensures c.stallDetect.CustomStallDetect? ==>
      r.stall == st && (r.verdict == Stalled <==> p.customStalled)
    ensures c.stallDetect.DefaultStallDetect? ==>
      r.stall == StallDetect(c, st, p.first, p.second).state
      && (r.verdict == Stalled <==> StallDetect(c, st, p.first, p.second).stalled)
    ensures r.verdict != Stalled ==> (r.verdict == Confident <==> c.confidence >= c.acceptableConfidence)
  {
    var base := if c.confidence >= c.acceptableConfidence then Confident else NotYet;
    match c.stallDetect
    case NoStallDetect => Judged(base, st)
    case CustomStallDetect => Judged(if p.customStalled then Stalled else base, st)
    case DefaultStallDetect =>
      var s := StallDetect(c, st, p.first, p.second);
      Judged(if s.stalled then Stalled else base, s.state)
  }

  /** One `fbcRunContinuous`: the output moved, the verdict, and the state. */
  datatype Continued = Continued(moved: int, verdict: Verdict, controller: Controller, stall: StallState)

  /** `fbcRunContinuous`: the tick runs and its output is moved before the
      verdict is taken, so the verdict sees this tick's confidence. */
  function RunContinuous(c: Controller, st: StallState, sensed: int, now: Stamp, f: Foreign, p: Probe): (r: Continued)
    ensures r.moved == GenerateOutput(c, sensed, now, f).out
    ensures r.controller == GenerateOutput(c, sensed, now, f).controller
    ensures r.verdict != Stalled ==>
      (r.verdict == Confident <==>
         (if Abs(c.goal - sensed) < c.acceptableTolerance then c.confidence + 1 else 0) >= c.acceptableConfidence)
    ensures c.stallDetect.NoStallDetect? ==> r.verdict != Stalled && r.stall == st
    ensures Judged(r.verdict, r.stall) == IsConfident(r.controller, st, p)
    ensures r.controller.output == c.output
  {
    var tick := GenerateOutput(c, sensed, now, f);
    var judged := IsConfident(tick.controller, st, p);
    Continued(tick.out, judged.verdict, tick.controller, judged.stall)
  }

  /** The verdict of a combined tick is taken after the tick: a controller
      one on-target tick short of the threshold is not yet confident before
      the tick, and the same tick's verdict already says Confident. */
  lemma RunContinuousJudgesAfterTick(c: Controller, st: StallState, sensed: int, now: Stamp, f: Foreign, p: Probe)
    requires c.stallDetect.NoStallDetect?
    requires c.confidence + 1 == c.acceptableConfidence
    requires Abs(c.goal - sensed) < c.acceptableTolerance
    ensures IsConfident(c, st, p).verdict == NotYet
    ensures RunContinuous(c, st, sensed, now, f, p).verdict == Confident
  {
  }

  /** Starting from a cleared counter with no stall detector, the verdict
      after the k-th consecutive on-target tick is Confident exactly when
      k reaches the threshold. */
  lemma ConfidentExactlyAtThreshold(c: Controller, readings: seq<int>, now: Stamp, f: Foreign, st: StallState,
                                    p: Probe)
    requires c.confidence == 0 && c.stallDetect.NoStallDetect?
    requires forall i :: 0 <= i < |readings| ==> Abs(c.goal - readings[i]) < c.acceptableTolerance
    ensures IsConfident(Ticks(c, readings, now, f), st, p).verdict == Confident
            <==> |readings| >= c.acceptableConfidence
  {
    OnTargetTicksCount(c, readings, now, f);
  }

  /** `HAS_TIMED_OUT` of `fbcRunCompletion`: despite its name it is true while
      the loop may go on. `start + timeout` is `unsigned long` arithmetic and
      wraps at 2^32; a zero timeout means no limit. */
  function HasTimedOut(timeout: uint32, start: uint32, now: uint32): (r: bool)
    ensures timeout == 0 ==> r
    ensures timeout > 0 && start + timeout < WORD ==> (r <==> now <= start + timeout)
    ensures timeout > 0 && start + timeout >= WORD ==> (r <==> now <= start + timeout - WORD)
  {
    timeout == 0 || ToUint32(start + timeout) >= now
  }
}

=== FILE: fbc_clegg.dfy ===
/** The Clegg-integrator compute strategy (libfbc/src/fbc_clegg.c).

    The strategy keeps an integer accumulator. A goal change resets it and
    answers with a fixed initial output, a change in the error's sign resets it
    and answers 0, and otherwise the error is integrated and the output is the
    gain times the integral. The gain is a C `double`; the product
    `gain * _integral`, converted to `int` on return, is taken from the caller as
    the function `product`, which the model leaves uninterpreted.

    The C code never writes `_prevGoal` or `_prevError` outside reset and
    initialisation, and this model keeps that: see `GoalChangeIsSticky` and
    `NeverIntegratesFromRest`. */
module Clegg {
  import opened CInt

  /** `fbc_clegg_t`. */
  datatype State = State(
    gain: real,
    initialOutput: uint32,
    integral: int,
    prevGoal: int,
    prevError: int)

  /** One compute call: the raw output and the record it leaves behind. */
  datatype Step = Step(out: int, state: State)

  /** The output of the goal-change branch: `sgn(goal) * initialOutput` is
      evaluated in `unsigned int` arithmetic (the `int` operand is converted)
      and the result converted back to `int` on return. */
  function GoalChangeOutput(goal: int, initialOutput: uint32): (r: int)
    ensures IsInt32(r)
    ensures goal == 0 ==> r == 0
    ensures goal > 0 ==> r == ToInt32(initialOutput)
    ensures goal < 0 && initialOutput != INT_MAX + 1 ==> r == -ToInt32(initialOutput)
    ensures goal < 0 && initialOutput == INT_MAX + 1 ==> r == INT_MIN
  {
    ToInt32(ToUint32(Sgn(goal) * initialOutput))
  }

  /** `_cleggCompute`: the error is first added to the integral; then exactly
      one of the three branches decides the output and the integral. Nothing
      but the integral changes. */
  function Compute(d: State, goal: int, error: int, product: (real, int) -> int): (r: Step)
    ensures goal != d.prevGoal ==>
      r.out == GoalChangeOutput(goal, d.initialOutput) && r.state.integral == 0
    ensures goal == d.prevGoal && Sgn(error) != Sgn(d.prevError) ==>
      r.out == 0 && r.state.integral == 0
    ensures goal == d.prevGoal && Sgn(error) == Sgn(d.prevError) ==>
      r.out == product(d.gain, d.integral + error) && r.state.integral == d.integral + error
    ensures r.state == d.(integral := r.state.integral)
  {
    var accumulated := d.integral + error;
    if goal != d.prevGoal then
      Step(GoalChangeOutput(goal, d.initialOutput), d.(integral := 0))
    else if Sgn(error) != Sgn(d.prevError) then
      Step(0, d.(integral := 0))
    else
      Step(product(d.gain, accumulated), d.(integral := accumulated))
  }

  /** Outputs of successive compute calls with a fixed goal. */
  datatype Trace = Trace(outs: seq<int>, state: State)

  /** Feeds `errors` to `Compute` in order, threading the record. */
  function Run(d: State, goal: int, errors: seq<int>, product: (real, int) -> int): (r: Trace)
    ensures |r.outs| == |errors|
    ensures r.state == d.(integral := r.state.integral)
    decreases |errors|
  {
    if |errors| == 0 then Trace([], d)
    else
      var s := Compute(d, goal, errors[0], product);
      var rest := Run(s.state, goal, errors[1..], product);
      Trace([s.out] + rest.outs, rest.state)
  }

  /** Because compute never records the goal it saw, once the goal differs
      from `_prevGoal` every later call takes the goal-change branch: the
      output stays `sgn(goal) * initialOutput` and the integral stays 0. */
  lemma {:induction false} GoalChangeIsSticky(d: State, goal: int, errors: seq<int>, product: (real, int) -> int)
    requires goal != d.prevGoal
    ensures forall i :: 0 <= i < |errors| ==>
      Run(d, goal, errors, product).outs[i] == GoalChangeOutput(goal, d.initialOutput)
    ensures |errors| > 0 ==> Run(d, goal, errors, product).state.integral == 0
    decreases |errors|
  {
    if |errors| > 0 {
      var s := Compute(d, goal, errors[0], product);
      GoalChangeIsSticky(s.state, goal, errors[1..], product);
      var r := Run(d, goal, errors, product);
      forall i | 0 <= i < |errors|
        ensures r.outs[i] == GoalChangeOutput(goal, d.initialOutput)
      {
        if i > 0 {
          assert r.outs[i] == Run(s.state, goal, errors[1..], product).outs[i - 1];
        }
      }
    }
  }

  /** From a record at rest (integral and previous error both 0, as reset and
      initialisation leave it) the integral never leaves 0: the integrating
      branch needs `sgn(error) == sgn(0)`, that is a zero error. Every output is
      the goal-change output, 0, or the product of the gain with 0. */
  lemma {:induction false} NeverIntegratesFromRest(d: State, goal: int, errors: seq<int>, product: (real, int) -> int)
    requires d.integral == 0 && d.prevError == 0
    ensures Run(d, goal, errors, product).state.integral == 0
    ensures forall i :: 0 <= i < |errors| ==>
      Run(d, goal, errors, product).outs[i] in {GoalChangeOutput(goal, d.initialOutput), 0, product(d.gain, 0)}
    decreases |errors|
  {
    if |errors| > 0 {
      var s := Compute(d, goal, errors[0], product);
      assert s.state.integral == 0;
      NeverIntegratesFromRest(s.state, goal, errors[1..], product);
      var r := Run(d, goal, errors, product);
      forall i | 0 <= i < |errors|
        ensures r.outs[i] in {GoalChangeOutput(goal, d.initialOutput), 0, product(d.gain, 0)}
      {
        if i > 0 {
          assert r.outs[i] == Run(s.state, goal, errors[1..], product).outs[i - 1];
        }
      }
    }
  }

  /** `_cleggReset`: the three internal fields return to 0; the configuration
      is kept. */
  function Reset(d: State): (r: State)
    ensures r.integral == 0 && r.prevError == 0 && r.prevGoal == 0
    ensures r.gain == d.gain && r.initialOutput == d.initialOutput
  {
    d.(integral := 0, prevError := 0, prevGoal := 0)
  }

  /** `fbcCleggInitializeData`: every field is written; `initialOutput`
      arrives as an `int` and is stored in an `unsigned int`. */
  function InitializeData(gain: real, initialOutput: int): (r: State)
    ensures r.gain == gain
    ensures r.integral == 0 && r.prevError == 0 && r.prevGoal == 0
    ensures IsInt32(initialOutput) ==> ToInt32(r.initialOutput) == initialOutput
  {
    Int32RoundTrip(if IsInt32(initialOutput) then initialOutput else 0);
    State(gain, ToUint32(initialOutput), 0, 0, 0)
  }

  /** Resetting twice is resetting once. */
  lemma ResetIdempotent(d: State)
    ensures Reset(Reset(d)) == Reset(d)
  {
  }

  /** A freshly initialised record answers the first nonzero goal with the
      initial output given to `fbcCleggInitializeData`, signed like the goal;
      only INT_MIN, whose negation wraps, stays INT_MIN for a negative goal. */
  lemma InitialOutputOnFirstGoal(gain: real, initialOutput: int, goal: int, error: int, product: (real, int) -> int)
    requires IsInt32(initialOutput) && goal != 0
    ensures initialOutput != INT_MIN ==>
      Compute(InitializeData(gain, initialOutput), goal, error, product).out == Sgn(goal) * initialOutput
    ensures initialOutput == INT_MIN ==>
      Compute(InitializeData(gain, initialOutput), goal, error, product).out == INT_MIN
  {
    Int32RoundTrip(initialOutput);
  }
}

=== FILE: fbc_pidmod.dfy ===
/** The integer part of the modified-PID compute strategy
    (libfbc/src/fbc_pidmod.c): the integral is halved when the error changes
    sign and accumulates otherwise, and the error is then remembered. The
    returned output (`double` gains, division by the elapsed time) is not part
    of this model. */
module PidMod {
  import opened CInt

  /** `fbc_pidmod_t`; the four gains are C `double`s, only stored here. */
  datatype State = State(
    kP: real,
    kI: real,
    kD: real,
    kF: real,
    integral: int,
    prevError: int)

  /** C's `x / 2`: integer division truncating toward zero (C11 section
      6.5.5), which differs from Dafny's `/` on odd negative numbers. The
      result satisfies the C identity `(x/2)*2 + x%2 == x` with a remainder
      that is 0 or carries the sign of `x`. */
  function HalfTowardZero(x: int): (h: int)
    ensures var rem := x - 2 * h; -1 <= rem <= 1 && (rem == 0 || Sgn(rem) == Sgn(x))
  {
    if x >= 0 then x / 2 else -((-x) / 2)
  }

  /** Truncating and Euclidean halving agree exactly on non-negative and even
      inputs. */
  lemma HalfTowardZeroVersusEuclidean(x: int)
    ensures HalfTowardZero(x) == x / 2 <==> x >= 0 || x % 2 == 0
  {
  }

  /** Halving toward zero keeps the sign (or reaches 0) and never grows the
      magnitude. */
  lemma HalfTowardZeroShrinks(x: int)
    ensures Abs(HalfTowardZero(x)) <= Abs(x)
    ensures HalfTowardZero(x) == 0 || Sgn(HalfTowardZero(x)) == Sgn(x)
    ensures HalfTowardZero(-x) == -HalfTowardZero(x)
  {
  }

  /** The accumulator update of `_pidmodCompute`. */
  function Accumulate(d: State, error: int): (r: State)
    ensures Sgn(error) != Sgn(d.prevError) ==> r.integral == HalfTowardZero(d.integral)
    ensures Sgn(error) == Sgn(d.prevError) ==> r.integral == d.integral + error
    ensures r.prevError == error
    ensures r == d.(integral := r.integral, prevError := error)
  {
    var integral := if Sgn(error) != Sgn(d.prevError) then HalfTowardZero(d.integral) else d.integral + error;
    d.(integral := integral, prevError := error)
  }

  function Sum(xs: seq<int>): int
    decreases |xs|
  {
    if |xs| == 0 then 0 else xs[0] + Sum(xs[1..])
  }

  /** Successive accumulator updates. */
  function AccumulateAll(d: State, errors: seq<int>): (r: State)
    ensures |errors| > 0 ==> r.prevError == errors[|errors| - 1]
    ensures r.kP == d.kP && r.kI == d.kI && r.kD == d.kD && r.kF == d.kF
    decreases |errors|
  {
    if |errors| == 0 then d else AccumulateAll(Accumulate(d, errors[0]), errors[1..])
  }

  /** While the error keeps the sign of the previous error, the integral is the
      plain running sum of the errors. */
  lemma {:induction false} SameSignErrorsAreSummed(d: State, errors: seq<int>)
    requires forall i :: 0 <= i < |errors| ==> Sgn(errors[i]) == Sgn(d.prevError)
    ensures AccumulateAll(d, errors).integral == d.integral + Sum(errors)
    decreases |errors|
  {
    if |errors| > 0 {
      var d' := Accumulate(d, errors[0]);
      assert forall i :: 0 <= i < |errors[1..]| ==> Sgn(errors[1..][i]) == Sgn(d'.prevError) by {
        forall i | 0 <= i < |errors[1..]|
          ensures Sgn(errors[1..][i]) == Sgn(d'.prevError)
        {
          assert errors[1..][i] == errors[i + 1];
        }
      }
      SameSignErrorsAreSummed(d', errors[1..]);
    }
  }

  /** An error of the opposite sign (or a zero error after a nonzero one)
      never grows the integral's magnitude. */
  lemma SignChangeNeverGrowsIntegral(d: State, error: int)
    requires Sgn(error) != Sgn(d.prevError)
    ensures Abs(Accumulate(d, error).integral) <= Abs(d.integral)
  {
    HalfTowardZeroShrinks(d.integral);
  }

  /** `_pidmodReset`: the integral and previous error return to 0; the gains
      are kept. */
  function Reset(d: State): (r: State)
    ensures r.integral == 0 && r.prevError == 0
    ensures r.kP == d.kP && r.kI == d.kI && r.kD == d.kD && r.kF == d.kF
  {
    d.(integral := 0, prevError := 0)
  }

  /** `fbcPIDModInitializeData` as written: it takes four gains but stores
      only kP, kI and kD; kF and the internal fields keep whatever they held. */
  function InitializeDataAsWritten(d: State, kP: real, kI: real, kD: real, kF: real): (r: State)
    ensures r.kP == kP && r.kI == kI && r.kD == kD
    ensures r.kF == d.kF && r.integral == d.integral && r.prevError == d.prevError
  {
    d.(kP := kP, kI := kI, kD := kD)
  }

  /** The feedforward gain handed to the initialiser is lost: on a zeroed
      record, asking for kF = 1 leaves kF = 0. */
  lemma InitializeDataDropsFeedforward()
    ensures InitializeDataAsWritten(State(0.0, 0.0, 0.0, 0.0, 0, 0), 1.0, 1.0, 1.0, 1.0).kF == 0.0
  {
  }

  /** `fbcPIDModInitializeData` as evidently intended: all four gains stored.
      Like the original it leaves the internal fields to `_pidmodReset`. */
  function InitializeData(d: State, kP: real, kI: real, kD: real, kF: real): (r: State)
    ensures r.kP == kP && r.kI == kI && r.kD == kD && r.kF == kF
    ensures r.integral == d.integral && r.prevError == d.prevError
  {
    d.(kP := kP, kI := kI, kD := kD, kF := kF)
  }

  /** The corrected initialiser differs from the original only in kF. */
  lemma InitializeDataDiffersOnlyInFeedforward(d: State, kP: real, kI: real, kD: real, kF: real)
    ensures InitializeData(d, kP, kI, kD, kF) == InitializeDataAsWritten(d, kP, kI, kD, kF).(kF := kF)
  {
  }
}

=== FILE: sml.dfy ===
/** The smart-motor table (sml/src/sml.c): ten motor slots addressed by port
    1..10, commanded values saturated to [-127, 127], per-motor inversion, and
    the `trueSpeed` linearisation table. Whether a mutex could be taken is a
    boolean the caller supplies (the scheduler decides it); the PWM write that
    `motorSet` performs is reported, not executed. */
module Sml {
  import opened Wrappers
  import opened CInt

  const NUM_MOTORS: nat := 10
  const MAX_PWM: int := 127
  /** Table entries below this index are 0: too little drive to move a motor. */
  const MOTOR_DEADBAND: nat := 7

  // ---------------------------------------------------------------------------
  // trueSpeed

  /** `trueSpeedLUT`, kept in the eight rows of its initialiser. */
  const LUTRow0: seq<int> := [0, 0, 0, 0, 0, 0, 0, 10, 12, 15, 18, 20, 21]
  const LUTRow1: seq<int> := [21, 22, 22, 22, 23, 24, 24, 25, 25, 25, 25, 26, 27, 27, 28, 28, 28, 28]
  const LUTRow2: seq<int> := [29, 30, 30, 30, 31, 31, 32, 32, 32, 33, 33, 34, 34, 35, 35, 35, 36, 36]
  const LUTRow3: seq<int> := [37, 37, 37, 37, 38, 38, 39, 39, 39, 40, 40, 41, 41, 42, 42, 43, 44, 44]
  const LUTRow4: seq<int> := [45, 45, 46, 46, 47, 47, 48, 48, 49, 50, 50, 51, 52, 52, 53, 54, 55, 56]
  const LUTRow5: seq<int> := [57, 57, 58, 59, 60, 61, 62, 63, 64, 65, 66, 67, 67, 68, 70, 71, 72, 72]
  const LUTRow6: seq<int> := [73, 74, 76, 77, 78, 79, 79, 80, 81, 83, 84, 84, 86, 86, 87, 87, 88, 88]
  const LUTRow7: seq<int> := [89, 89, 90, 90, 127, 127, 127]

  const TrueSpeedLUT: seq<int> := LUTRow0 + LUTRow1 + LUTRow2 + LUTRow3 + LUTRow4 + LUTRow5 + LUTRow6 + LUTRow7

  predicate NonDecreasing(s: seq<int>) {
    forall i :: 0 <= i < |s| - 1 ==> s[i] <= s[i + 1]
  }

  /** Joining two non-decreasing sequences at a non-decreasing seam gives a
      non-decreasing sequence. */
  lemma NonDecreasingAppend(x: seq<int>, y: seq<int>)
    requires NonDecreasing(x) && NonDecreasing(y)
    requires |x| > 0 && |y| > 0 && x[|x| - 1] <= y[0]
    ensures NonDecreasing(x + y)
  {
  }

  /** `trueSpeedLUT` never decreases, row by row and across each row boundary. */
  lemma LUTNonDecreasing()
    ensures |TrueSpeedLUT| == MAX_PWM + 1
    ensures NonDecreasing(TrueSpeedLUT)
  {
    assert NonDecreasing(LUTRow0);
    assert NonDecreasing(LUTRow1);
    NonDecreasingAppend(LUTRow0, LUTRow1);
    assert NonDecreasing(LUTRow2);
    NonDecreasingAppend(LUTRow0 + LUTRow1, LUTRow2);
    assert NonDecreasing(LUTRow3);
    NonDecreasingAppend(LUTRow0 + LUTRow1 + LUTRow2, LUTRow3);
    assert NonDecreasing(LUTRow4);
    NonDecreasingAppend(LUTRow0 + LUTRow1 + LUTRow2 + LUTRow3, LUTRow4);
    assert NonDecreasing(LUTRow5);
    NonDecreasingAppend(LUTRow0 + LUTRow1 + LUTRow2 + LUTRow3 + LUTRow4, LUTRow5);
    assert NonDecreasing(LUTRow6);
    NonDecreasingAppend(LUTRow0 + LUTRow1 + LUTRow2 + LUTRow3 + LUTRow4 + LUTRow5, LUTRow6);
    assert NonDecreasing(LUTRow7);
    NonDecreasingAppend(LUTRow0 + LUTRow1 + LUTRow2 + LUTRow3 + LUTRow4 + LUTRow5 + LUTRow6, LUTRow7);
  }

  lemma LUTDeadband()
    ensures |TrueSpeedLUT| == MAX_PWM + 1
    ensures forall i :: 0 <= i < MOTOR_DEADBAND ==> TrueSpeedLUT[i] == 0
    ensures TrueSpeedLUT[MOTOR_DEADBAND] > 0
    ensures TrueSpeedLUT[MAX_PWM] == MAX_PWM
  {
    assert forall i :: 0 <= i < MOTOR_DEADBAND ==> LUTRow0[i] == 0;
  }

  /** The table has 128 entries within 0..127, is non-decreasing from one
      entry to the next, and is 0 exactly on the deadband. */
  lemma LUTShape()
    ensures |TrueSpeedLUT| == MAX_PWM + 1
    ensures NonDecreasing(TrueSpeedLUT)
    ensures forall i :: 0 <= i < |TrueSpeedLUT| ==> 0 <= TrueSpeedLUT[i] <= MAX_PWM
    ensures forall i :: 0 <= i < MOTOR_DEADBAND ==> TrueSpeedLUT[i] == 0
    ensures forall i :: MOTOR_DEADBAND <= i < |TrueSpeedLUT| ==> TrueSpeedLUT[i] > 0
  {
    LUTNonDecreasing();
    LUTDeadband();
    forall i | 0 <= i < |TrueSpeedLUT|
      ensures 0 <= TrueSpeedLUT[i] <= MAX_PWM
      ensures MOTOR_DEADBAND <= i ==> TrueSpeedLUT[i] > 0
    {
      NonDecreasingIsMonotone(TrueSpeedLUT, 0, i);
      NonDecreasingIsMonotone(TrueSpeedLUT, i, MAX_PWM);
      if MOTOR_DEADBAND <= i {
        NonDecreasingIsMonotone(TrueSpeedLUT, MOTOR_DEADBAND, i);
      }
    }
  }

  /** A sequence that never decreases from one entry to the next never
      decreases between any two entries. */
  lemma {:induction false} NonDecreasingIsMonotone(s: seq<int>, i: int, j: int)
    requires NonDecreasing(s)
    requires 0 <= i <= j < |s|
    ensures s[i] <= s[j]
    decreases j - i
  {
    if i < j {
      NonDecreasingIsMonotone(s, i + 1, j);
    }
  }

  /** `trueSpeed` as written: `cmd > 0 ? trueSpeedLUT[cmd] : -trueSpeedLUT[cmd]`.
      None stands for a read outside the 128-entry table, which happens for
      every negative command: the negative branch indexes with `cmd` instead
      of `-cmd`. */
  function TrueSpeedAsWritten(cmd: int): (r: Option<int>)
    ensures r.Some? <==> 0 <= cmd <= MAX_PWM
    ensures 0 < cmd <= MAX_PWM ==> r == Some(TrueSpeedLUT[cmd])
    ensures cmd == 0 ==> r == Some(0)
  {
    LUTShape();
    if cmd > 0 then (if cmd < |TrueSpeedLUT| then Some(TrueSpeedLUT[cmd]) else None)
    else if 0 <= cmd then Some(-TrueSpeedLUT[cmd])
    else None
  }

  /** As written, no command within bounds yields a negative speed: the
      lookup can never drive a motor backwards, and full reverse (-127) reads
      outside the table. */
  lemma TrueSpeedAsWrittenNeverReverses(cmd: int)
    ensures TrueSpeedAsWritten(cmd).Some? ==> TrueSpeedAsWritten(cmd).value >= 0
    ensures TrueSpeedAsWritten(-MAX_PWM).None?
  {
    LUTShape();
  }

  /** `trueSpeed` as evidently intended: the table lookup on the magnitude,
      with the command's sign. Defined on the PWM range. */
  function TrueSpeed(cmd: int): (r: int)
    requires -MAX_PWM <= cmd <= MAX_PWM
    ensures 0 <= cmd ==> r == TrueSpeedLUT[cmd]
    ensures -MAX_PWM <= r <= MAX_PWM
    ensures r == 0 || Sgn(r) == Sgn(cmd)
    ensures Abs(cmd) < MOTOR_DEADBAND ==> r == 0
  {
    LUTShape();
    if cmd > 0 then TrueSpeedLUT[cmd] else -TrueSpeedLUT[-cmd]
  }

  /** The corrected lookup agrees with the original wherever the original
      stays inside the table. */
  lemma TrueSpeedAgreesWhereDefined(cmd: int)
    requires TrueSpeedAsWritten(cmd).Some?
    ensures TrueSpeed(cmd) == TrueSpeedAsWritten(cmd).value
  {
  }

  /** Reversing the command reverses the speed. */
  lemma TrueSpeedOdd(cmd: int)
    requires -MAX_PWM <= cmd <= MAX_PWM
    ensures TrueSpeed(-cmd) == -TrueSpeed(cmd)
  {
    LUTShape();
  }

  /** A larger command never gives a smaller speed. */
  lemma TrueSpeedMonotone(a: int, b: int)
    requires -MAX_PWM <= a <= b <= MAX_PWM
    ensures TrueSpeed(a) <= TrueSpeed(b)
  {
    if 0 <= a {
      assert TrueSpeedLUT[a] <= TrueSpeedLUT[b] by {
        LUTNonDecreasing();
        NonDecreasingIsMonotone(TrueSpeedLUT, a, b);
      }
    } else if b < 0 {
      assert TrueSpeedLUT[-b] <= TrueSpeedLUT[-a] by {
        LUTNonDecreasing();
        NonDecreasingIsMonotone(TrueSpeedLUT, -b, -a);
      }
    }
  }

  // ---------------------------------------------------------------------------
  // The motor table

  /** The scaling callback a motor slot holds. */
  datatype Recalculate =
    | NoRecalculate          // NULL, as the zero-initialised table holds it
    | DefaultRecalculate     // `defaultRecalculate`, the identity
    | TrueSpeedRecalculate   // `trueSpeed`
    | OtherRecalculate(id: nat)  // a caller's own function

  /** The value the callback produces for a PWM value in range; None where
      the callback is NULL or a caller's function this model does not know. */
  function Recalc(h: Recalculate, pwm: int): (r: Option<int>)
    requires -MAX_PWM <= pwm <= MAX_PWM
    ensures h.DefaultRecalculate? ==> r == Some(pwm)
    ensures h.TrueSpeedRecalculate? ==> r.Some? && -MAX_PWM <= r.value <= MAX_PWM
                                        && (r.value == 0 || Sgn(r.value) == Sgn(pwm))
    ensures h.TrueSpeedRecalculate? && 0 <= pwm ==> r == TrueSpeedAsWritten(pwm)
    ensures r.Some? <==> h.DefaultRecalculate? || h.TrueSpeedRecalculate?
  {
    match h
    case DefaultRecalculate => Some(pwm)
    case TrueSpeedRecalculate => Some(TrueSpeed(pwm))
    case _ => None
  }

  /** `Motor` (sml/include/sml.h). `slewrate` is a C `float`, only stored
      here; `inverted` is a plain `char` that `smartMotorInit` sets to -1 or
      1, taken here to be signed so that it holds -1. */
  datatype Motor = Motor(
    port: nat,
    pwm: int,
    cmd: int,
    lastUpdate: nat,
    slewrate: real,
    inverted: int,
    immediate: bool,
    recalculate: Recalculate)

  /** A slot of the zero-initialised static table. */
  const UnsetMotor: Motor := Motor(0, 0, 0, 0, 0.0, 0, false, NoRecalculate)

  type MotorTable = t: seq<Motor> | |t| == NUM_MOTORS witness seq(NUM_MOTORS, _ => UnsetMotor)

  const InitialTable: MotorTable := seq(NUM_MOTORS, _ => UnsetMotor)

  predicate ValidPort(port: int) {
    1 <= port <= NUM_MOTORS
  }

  /** The saturation `smartMotorSet` applies to a commanded value. */
  function ClampPwm(commanded: int): (r: int)
    ensures -MAX_PWM <= r <= MAX_PWM
    ensures -MAX_PWM <= commanded <= MAX_PWM ==> r == commanded
    ensures commanded > MAX_PWM ==> r == MAX_PWM
    ensures commanded < -MAX_PWM ==> r == -MAX_PWM
  {
    if commanded > MAX_PWM then MAX_PWM
    else if commanded < -MAX_PWM then -MAX_PWM
    else commanded
  }

  /** Saturation is idempotent and order-preserving. */
  lemma ClampPwmIdempotentMonotone(a: int, b: int)
    ensures ClampPwm(ClampPwm(a)) == ClampPwm(a)
    ensures a <= b ==> ClampPwm(a) <= ClampPwm(b)
  {
  }

  /** The `motorSet(port, value)` hardware write `smartMotorSet` performs. */
  datatype PwmWrite = PwmWrite(port: nat, value: int)

  datatype SetOutcome = SetOutcome(ok: bool, table: MotorTable, write: Option<PwmWrite>)

  /** `smartMotorSet(port, commanded, immediate)`. `acquired` is whether
      `mutexTake` succeeded within its timeout; it matters only on the
      immediate path. */
  function SmartMotorSet(t: MotorTable, port: int, commanded: int, immediate: bool, acquired: bool): (r: SetOutcome)
    ensures r.ok <==> ValidPort(port) && (!immediate || acquired)
    ensures !r.ok ==> r.table == t && r.write.None?
    ensures r.ok ==> r.table[port - 1].cmd == ClampPwm(commanded) * t[port - 1].inverted
    ensures r.ok ==> r.table[port - 1] == t[port - 1].(cmd := r.table[port - 1].cmd)
    ensures r.ok ==> forall j :: 0 <= j < NUM_MOTORS && j != port - 1 ==> r.table[j] == t[j]
    ensures r.write.Some? <==> r.ok && immediate
    ensures r.write.Some? ==> r.write.value == PwmWrite(port, r.table[port - 1].cmd)
  {
    if !ValidPort(port) then SetOutcome(false, t, None)
    else
      var value := ClampPwm(commanded);
      var slot := port - 1;
      if immediate && !acquired then SetOutcome(false, t, None)
      else
        var cmd := value * t[slot].inverted;
        var write := if immediate then Some(PwmWrite(port, cmd)) else None;
        SetOutcome(true, t[slot := t[slot].(cmd := cmd)], write)
  }

  /** `smartMotorGet(port)`: the stored command with the inversion undone;
      0 for a port outside 1..10. */
  function SmartMotorGet(t: MotorTable, port: int): (v: int)
    ensures !ValidPort(port) ==> v == 0
    ensures ValidPort(port) && t[port - 1].inverted == 0 ==> v == 0
    ensures ValidPort(port) && t[port - 1].inverted == 1 ==> v == t[port - 1].cmd
    ensures ValidPort(port) && t[port - 1].inverted == -1 ==> v == -t[port - 1].cmd
  {
    if !ValidPort(port) then 0
    else t[port - 1].cmd * t[port - 1].inverted
  }

  /** A successful set is read back by get as the saturated command, on a
      slot whose inversion is -1 or 1. */
  lemma SetThenGet(t: MotorTable, port: int, commanded: int, immediate: bool, acquired: bool)
    requires ValidPort(port) && (t[port - 1].inverted == 1 || t[port - 1].inverted == -1)
    requires SmartMotorSet(t, port, commanded, immediate, acquired).ok
    ensures SmartMotorGet(SmartMotorSet(t, port, commanded, immediate, acquired).table, port) == ClampPwm(commanded)
  {
  }

  /** A set leaves every other port's reading unchanged. */
  lemma SetLeavesOtherPorts(t: MotorTable, port: int, other: int, commanded: int, immediate: bool, acquired: bool)
    requires other != port
    ensures SmartMotorGet(SmartMotorSet(t, port, commanded, immediate, acquired).table, other) == SmartMotorGet(t, other)
  {
  }

  /** `smartMotorInit(port, inverted, slewrate, recalculate)`: configures one
      slot; a NULL callback becomes `defaultRecalculate`. The commanded value
      and the remaining bookkeeping are kept. */
  function SmartMotorInit(t: MotorTable, port: int, inverted: bool, slewrate: real, recalculate: Recalculate): (r: MotorTable)
    ensures !ValidPort(port) ==> r == t
    ensures ValidPort(port) ==>
      && r[port - 1].port == port
      && r[port - 1].inverted == (if inverted then -1 else 1)
      && r[port - 1].slewrate == slewrate
      && r[port - 1].recalculate == (if recalculate.NoRecalculate? then DefaultRecalculate else recalculate)
      && r[port - 1] == t[port - 1].(port := port, inverted := r[port - 1].inverted, slewrate := slewrate,
                                    recalculate := r[port - 1].recalculate)
    ensures forall j :: 0 <= j < NUM_MOTORS && j != port - 1 ==> r[j] == t[j]
  {
    if !ValidPort(port) then t
    else
      var slot := port - 1;
      var hook := if recalculate.NoRecalculate? then DefaultRecalculate else recalculate;
      t[slot := t[slot].(port := port, inverted := if inverted then -1 else 1, slewrate := slewrate, recalculate := hook)]
  }

  /** Once a port is configured, set-then-get round-trips whichever way the
      motor is mounted, and an inverted motor stores the negated command. */
  lemma InitSetGet(t: MotorTable, port: int, inverted: bool, slewrate: real, recalculate: Recalculate,
                   commanded: int, immediate: bool, acquired: bool)
    requires ValidPort(port) && (!immediate || acquired)
    ensures var t1 := SmartMotorInit(t, port, inverted, slewrate, recalculate);
            var t2 := SmartMotorSet(t1, port, commanded, immediate, acquired).table;
            && SmartMotorGet(t2, port) == ClampPwm(commanded)
            && t2[port - 1].cmd == (if inverted then -ClampPwm(commanded) else ClampPwm(commanded))
  {
  }

  /** On the zero-initialised table (no `smartMotorInit` yet) the inversion
      factor is 0, so every set stores 0 and every get reads 0. */
  lemma UnconfiguredSlotReadsZero(port: int, commanded: int, immediate: bool, acquired: bool)
    requires ValidPort(port)
    ensures SmartMotorGet(SmartMotorSet(InitialTable, port, commanded, immediate, acquired).table, port) == 0
  {
  }
}

=== FILE: wiring.dfy ===
/** Wiring a compute strategy into a controller: `fbcCleggInit`
    (libfbc/src/fbc_clegg.c) and `fbcPIDModInit` (libfbc/src/fbc_pidmod.c).
    Both set `compute`, point `_controllerData` at the strategy record and bind
    the strategy's reset hook; nothing else in the controller changes. */
module Wiring {
  import Fbc
  import Clegg
  import PidMod

  /** `fbcCleggInit`. */
  function CleggInit(c: Fbc.Controller, d: Clegg.State): (r: Fbc.Controller)
    ensures r.strategy == Fbc.CleggStrategy(d) && r.resetController
    ensures r == c.(strategy := Fbc.CleggStrategy(d), resetController := true)
  {
    c.(strategy := Fbc.CleggStrategy(d), resetController := true)
  }

  /** `fbcPIDModInit`. */
  function PIDModInit(c: Fbc.Controller, d: PidMod.State): (r: Fbc.Controller)
    ensures r.strategy == Fbc.PidModStrategy(d) && r.resetController
    ensures r == c.(strategy := Fbc.PidModStrategy(d), resetController := true)
  {
    c.(strategy := Fbc.PidModStrategy(d), resetController := true)
  }

  /** Wired after `fbcInit`, the strategy is cleared by every later reset. */
  lemma ResetClearsStrategyWiredAfterInit(c: Fbc.Controller, d: Clegg.State, hasResetSense: bool,
                                          stallDetect: Fbc.StallHook, negDeadband: int, posDeadband: int,
                                          acceptableTolerance: nat, acceptableConfidence: nat)
    ensures var c1 := Fbc.Init(c, hasResetSense, stallDetect, negDeadband, posDeadband,
                               acceptableTolerance, acceptableConfidence).controller;
            Fbc.Reset(CleggInit(c1, d)).controller.strategy == Fbc.CleggStrategy(Clegg.Reset(d))
  {
  }

  /** The same for the modified PID strategy: after `fbcInit` then
      `fbcPIDModInit`, a reset zeroes the integral and
      the previous error and keeps the gains. */
  lemma ResetClearsPidModWiredAfterInit(c: Fbc.Controller, d: PidMod.State, hasResetSense: bool,
                                        stallDetect: Fbc.StallHook, negDeadband: int, posDeadband: int,
                                        acceptableTolerance: nat, acceptableConfidence: nat)
    ensures var c1 := Fbc.Init(c, hasResetSense, stallDetect, negDeadband, posDeadband,
                               acceptableTolerance, acceptableConfidence).controller;
            Fbc.Reset(PIDModInit(c1, d)).controller.strategy == Fbc.PidModStrategy(d.(integral := 0, prevError := 0))
  {
  }

  /** Wired before `fbcInit`, the strategy loses its reset hook: `fbcInit`
      unbinds it, so neither `fbcInit`'s own reset nor any later one clears
      the record, and a nonzero integral survives. */
  lemma InitDropsResetOfEarlierWiring(c: Fbc.Controller, d: Clegg.State, hasResetSense: bool,
                                      stallDetect: Fbc.StallHook, negDeadband: int, posDeadband: int,
                                      acceptableTolerance: nat, acceptableConfidence: nat)
    ensures var c1 := Fbc.Init(CleggInit(c, d), hasResetSense, stallDetect, negDeadband, posDeadband,
                               acceptableTolerance, acceptableConfidence).controller;
            && !c1.resetController
            && c1.strategy == Fbc.CleggStrategy(d)
            && Fbc.Reset(c1).controller.strategy == Fbc.CleggStrategy(d)
  {
  }

  /** A Clegg-wired controller ticks with the Clegg compute: after the goal
      moves away from the record's `_prevGoal`, the tick's raw output is the
      goal-change output, pushed out of the deadband. */
  lemma CleggTickOnGoalChange(c: Fbc.Controller, d: Clegg.State, sensed: int, now: Fbc.Stamp, f: Fbc.Foreign)
    requires c.goal != d.prevGoal
    ensures Fbc.GenerateOutput(CleggInit(c, d), sensed, now, f).out ==
            Fbc.Clamp(Clegg.GoalChangeOutput(c.goal, d.initialOutput), c.negDeadband, c.posDeadband)
    ensures Fbc.GenerateOutput(CleggInit(c, d), sensed, now, f).controller.strategy.clegg.integral == 0
  {
  }
}

=== FILE: wrappers.dfy ===
/** The optional-value datatype the model uses for C null pointers and for
    reads the C code performs outside an array. */
module Wrappers {

  datatype Option<+T> = None | Some(value: T)
}
